=== FILE: README.md ===
# COVID-19 India dashboard: join and UI state

This project models the logic of the dashboard's single React component
(`src/App.js`). That logic covers:

- the join of the feed's `statewise` records with the bundled geocode table;
- the selection state (selected state code, selected record, map centre, selected metric);
- the dark-mode preference and its persisted copy;
- the window width, which decides whether the status cards abbreviate their counts.

The network fetch, local storage and the DOM are not modelled. Their results
come in as parameters: the parsed `statewise` array, the geocode table, the
stored dark-mode flag and the window width.

Modules:

- `Outcome`: `Option` and `Result`.
- `Records`: the feed record `RawStat`, the geocode entry `GeoEntry`, the joined
  `StateRecord`, and `Enrich`, which is the object spread `{...raw, lat, lng, name}`.
  Coordinates are `real` and are only copied. The feed fields that the code
  never names go in `extra`, whose keys exclude the typed fields' names. The spread shadows any `lat`, `lng` or `name`
  among them.
- `StateJoin`: the nested-loop join. It has a recursive definition (`Row`, `Join`)
  and an imperative copy of the two loops (`JoinNested`) that is proved equal to it.
  Lemmas cover what the join contains, its count, its order and its head.
  A keyed-lookup join is proved equal to it when the table's codes are unique.
- `Dashboard`: the component state `Ui`, its handlers, and the values passed to the
  four status cards. `selectedStateInfo` is `Blank` (the initial `{}`),
  `Undefined` (what `DataofStates[0]` gives for an empty join) or `Picked(record)`.
- `Session`: event sequences and the invariants every reachable state keeps.

Three behaviours of the code that a reader might not expect:

- Loading does not change the dropdown value (`"TT"`) or the map centre
  (src/App.js:27, 30, 70-71). Only a dropdown change moves the map.
  `Session.LoadKeepsDefaultCenter` shows this on a one-state example.
- State codes are not assumed unique. The inner loop has no `break`, so a code that
  appears twice in the geocode table gives two records. Uniqueness is only a
  hypothesis of the lemmas that compare the join with a keyed lookup.
- `onStateChange` with a code not in `states` reads `lat` of `undefined`
  (src/App.js:84). The model returns `Err(UnknownStateCode(code))`.
  A load whose join is empty selects `undefined` (src/App.js:71). The next render
  reads `selectedStateInfo.active` (src/App.js:155-156) and throws, which ends
  the component. `CardCases` returns `Err(UndefinedSelection)` for such a state,
  and `Session.Step` ends the session with that error.

## Model

| member | source | states |
|---|---|---|
| Records.Enrich | src/App.js:60-65 | the spread `{...data.statewise[i], lat, lng: long, name}`: the result carries every feed field except the shadowed `lat`, `lng` and `name`, none of which stays in its other fields, and always takes the entry's `lat`, its `long` as `lng`, and its `name`; so the result is located at the entry exactly when the two codes agree |
| StateJoin.Join | src/App.js:56-69 | the definition of the joined array `DataofStates`, feed record by feed record; what it contains is stated by the `JoinMembership`, `JoinCount`, `JoinSound` and `JoinByIndex` rows |
| StateJoin.Row | src/App.js:58-68 | one feed record's inner-loop output has exactly as many records as the geocode table has entries with its code; duplicate codes give duplicate records, no entry gives none |
| StateJoin.JoinCount | src/App.js:56-69 | the joined array's length equals the number of (statewise, geocode) pairs with equal codes |
| StateJoin.JoinNested | src/App.js:56-69 | the two nested loops that push onto `DataofStates` compute exactly the recursive join |
| StateJoin.PushMatches | src/App.js:58-68 | the inner loop appends exactly the feed record's row to what was pushed before |
| StateJoin.IndexKeys | src/App.js:58-59 | a code can be looked up in the keyed table if and only if some geocode entry lists it |
| StateJoin.RowSound | src/App.js:58-65 | every record of a row is the feed record enriched with some table entry carrying its code |
| StateJoin.JoinSound | src/App.js:59-66 | every joined record comes from a matching pair; it keeps the feed record's code, counts and other fields, and takes the entry's name, `lat` and `long` as `lng` |
| StateJoin.RowComplete | src/App.js:58-66 | every table entry with the feed record's code contributes its record to the row |
| StateJoin.JoinComplete | src/App.js:57-66 | every matching (statewise, geocode) pair contributes its record to the join |
| StateJoin.JoinMembership | src/App.js:57-69 | a record is in the join if and only if some matching pair produces it |
| StateJoin.JoinEmpty | src/App.js:57-69 | the join is empty if and only if no pair matches |
| StateJoin.RowEmpty | src/App.js:58-68 | a feed record is dropped if and only if the geocode table lacks its code |
| StateJoin.RowAppend | src/App.js:58-68 | within a row, records follow the geocode table's order |
| StateJoin.JoinAppend | src/App.js:57-69 | the join of a concatenated feed is the concatenation of the joins: records follow the feed's order |
| StateJoin.JoinBlock | src/App.js:57-69 | feed record i's records form one contiguous block after those of every earlier feed record and before those of every later one |
| StateJoin.RowBlock | src/App.js:58-68 | table entry j's record, if any, sits after the records of earlier entries and before those of later ones |
| StateJoin.JoinHead | src/App.js:57-69 | the first joined record comes from the first matching pair in (statewise index, geocode index) order |
| StateJoin.RowByIndex | src/App.js:58-68 | with unique codes, a row is at most one record: the feed record enriched with the entry looked up by its code |
| StateJoin.JoinByIndex | src/App.js:57-69 | with unique codes, the nested-loop join equals a keyed-lookup join, so it keeps at most one record per feed record, in feed order |
| StateJoin.JoinIdempotent | src/App.js:57-69 | with unique codes, joining the joined records again against the same table gives the same records: nothing is added or duplicated |
| Dashboard.Init | src/App.js:23-35 | the first render starts with no records, an empty `{}` selection, the dropdown at "TT", the map at its default centre, the Active card highlighted, and the stored dark-mode flag already persisted |
| Dashboard.Load | src/App.js:70-71 | loading stores the join and selects its first record, which is `undefined` exactly when no pair matches; the dropdown value, map centre, metric, dark mode and width are unchanged |
| Dashboard.LoadSelectsFirstMatch | src/App.js:56-71 | after loading, the selected record is the enrichment of the first matching pair in nested-loop order |
| Dashboard.WithCode | src/App.js:80-82 | the filter keeps only records with the code, finds one exactly when one exists, and its first element is the first such record of `states` |
| Dashboard.SelectState | src/App.js:76-85 | a dropdown change succeeds exactly when some record has the code; it then sets the dropdown value to the code, selects the first record with that code, centres the map on its `lat`/`lng` and changes nothing else; otherwise it fails with `UnknownStateCode` |
| Dashboard.SelectStateSyncs | src/App.js:76-85 | after a successful dropdown change, the dropdown value, selected record and map centre describe the same state |
| Dashboard.SetCasesType | src/App.js:147-194 | a card click changes only `casesType`, and afterwards exactly the clicked card is highlighted |
| Dashboard.ActiveCards | src/App.js:151-185 | a card is highlighted exactly when `casesType` equals its metric's key |
| Dashboard.OneActiveCard | src/App.js:147-194 | exactly one card is highlighted if and only if `casesType` is one of the four metric keys |
| Dashboard.ToggleDark | src/App.js:135 | the switch flips the dark-mode flag, the persisted copy equals the new value, and nothing else changes |
| Dashboard.ToggleTwice | src/App.js:135 | switching twice restores the state when the persisted flag agrees with the live one |
| Dashboard.Resize | src/App.js:41-43 | a resize stores the new width; afterwards every card abbreviates its count if and only if that width is below 770, while the counts shown, whether the cards can render, and every other field of the state stay as they were |
| Dashboard.CardCases | src/App.js:153-193 | a card shows the abbreviated count if and only if the width is below 770, otherwise the raw count; the count is the selected record's count for the card's metric, absent while the selection is `{}`, and rendering fails while it is `undefined` |
| Session.Step | src/App.js:33-189 | one event fails exactly as a dropdown change to a code no loaded record has, or as a load with no matching pair, whose `undefined` selection the next render reads; every other load, dropdown change, card click, toggle and resize is handled. A successful load yields the state `Load` describes, a successful dropdown change leaves the selection in sync, and every successful handler preserves the persisted-flag, known-metric and renderable-selection invariants |
| Session.Run | src/App.js:33-189 | the definition of a session: events are handled one at a time, each to completion, and a handler that fails ends the component with its failure; `RunConsistent`, `ReachableConsistent` and `RunKeepsSync` state what every reached state satisfies |
| Session.RunConsistent | src/App.js:33-189 | along any event sequence, every reached state keeps the persisted flag equal to the live one, `casesType` one of the four metric keys, and a selection that is not `undefined` |
| Session.ReachableConsistent | src/App.js:23-35 | every state reachable from the first render has the persisted dark-mode flag equal to the live one, exactly one highlighted card, and cards that all render |
| Session.RunKeepsSync | src/App.js:76-85 | once the selection and map centre agree, they keep agreeing through every event except a reload |
| Session.LoadKeepsDefaults | src/App.js:27-71 | for every feed and geocode table, a successful load from the first render selects a record but leaves the dropdown at "TT" and the map at its default centre |
| Session.LoadKeepsDefaultCenter | src/App.js:27-30 | loading one matched Maharashtra record selects it and its card shows 40 active, but the dropdown stays "TT" and the map keeps its default centre |

## Left out

- The `fetch` of the feed and `response.json()` (src/App.js:52-54) are network I/O and parsing. The model starts from the parsed `statewise` array. A rejected fetch leaves the state as it was, so it needs no event.
- `setData` and `cases_time_series` (src/App.js:55, 204) are handed unchanged to the chart widget, which is not part of this model.
- `getInitialMode` reads local storage and runs `JSON.parse` (src/App.js:37-39). The stored flag is a `bool` parameter of `Init`. A missing key parses to `null`, which renders and toggles like `false`; the model does not keep the difference.
- Dashboard.ToggleDark: assumes `localStorage.setItem("dark", …)` (src/App.js:34) returns. The effect runs on mount, which `Dashboard.Init` folds into the first render, and after every toggle. A full or disabled storage would make it throw and unmount the component; the model instead records the write as a field that always matches the live flag, so `Session.ReachableConsistent` concludes `Persisted` for every reachable state.
- Registering the resize listener (src/App.js:46-48) is DOM event plumbing. A resize is modelled only as setting the width.
- Dashboard.CardCases: assumes `prettyNumber` returns for every argument, `undefined` included. On a window narrower than 770 the first render passes it `undefined`, because the selection is still `{}` (src/App.js:28, 155), and its source is not part of this model. `Session.ReachableConsistent`'s claim that every card renders rests on the same assumption.
- `prettyNumber` (src/App.js:19) is not part of this model. An abbreviated card is recorded as `Abbreviated(count)` rather than as the formatted text.
- The geocode table `latlong` (src/App.js:13) is not part of this model. It is an arbitrary input sequence.
- JSX, styling, `console.log`, and the StatusCard, CircleMap, Charts and StateInfoTable widgets are presentation only.
- The feed's counts arrive as JSON values that the code never computes on. They are modelled as natural numbers.
- The effect at src/App.js:73 runs once per mount. `Session.Run` still accepts several `LoadComplete` events, and each one replaces `states` and the selection.

=== FILE: dashboard.dfy ===
/** The state the dashboard component keeps between renders, the handlers
    that change it, and the values it passes to its four status cards. */
module Dashboard {
  import opened Outcome
  import opened Records
  import StateJoin

  /** The coordinate pair handed to the map widget. */
  datatype Center = Center(lat: Coord, lng: Coord)

  /** The map centre before any state has been chosen. */
  const DefaultCenter: Center := Center(24.070541, 83.003948)

  /** The dropdown's value before any state has been chosen. */
  const DefaultState: string := "TT"

  /** Below this window width the cards show abbreviated counts. */
  const NarrowWidth: int := 770

  /** The four case categories, one per status card. */
  datatype Metric = Active | Confirmed | Recovered | Deaths

  /** The string a card's click handler stores in `casesType`. */
  function Key(m: Metric): string {
    match m
    case Active => "active"
    case Confirmed => "confirmed"
    case Recovered => "recovered"
    case Deaths => "deaths"
  }

  /** The metric's count in a joined record. */
  function Count(e: StateRecord, m: Metric): nat {
    match m
    case Active => e.active
    case Confirmed => e.confirmed
    case Recovered => e.recovered
    case Deaths => e.deaths
  }

  /** `selectedStateInfo`: the empty object it starts as, the `undefined` that
      indexing an empty join yields, or a joined record. */
  datatype Info = Blank | Undefined | Picked(rec: StateRecord)

  /** Runtime errors of the component: reading a field of `undefined`. */
  datatype Failure =
    | UnknownStateCode(code: string)   // onStateChange found no record with the code
    | UndefinedSelection               // a card read a count of an undefined selection

  /** The component's state. `storedDark` is the value in durable storage. */
  datatype Ui = Ui(
    states: seq<StateRecord>,
    selectedState: string,
    selectedStateInfo: Info,
    casesType: string,
    mapCenter: Center,
    darkMode: bool,
    storedDark: bool,
    windowWidth: nat)

  /** The persisted dark-mode flag agrees with the live one. */
  predicate Persisted(s: Ui) {
    s.storedDark == s.darkMode
  }

  /** `casesType` names one of the four metrics. */
  predicate KnownMetric(s: Ui) {
    exists m: Metric :: s.casesType == Key(m)
  }

  /** The cards can read the selection: it is not `undefined`. */
  predicate Renderable(s: Ui) {
    !s.selectedStateInfo.Undefined?
  }

  /** The invariants every reachable state keeps. */
  predicate Consistent(s: Ui) {
    Persisted(s) && KnownMetric(s) && Renderable(s)
  }

  /** The selection, its record and the map centre describe the same state. */
  predicate InSync(s: Ui) {
    && s.selectedStateInfo.Picked?
    && s.selectedStateInfo.rec.statecode == s.selectedState
    && s.mapCenter == Center(s.selectedStateInfo.rec.lat, s.selectedStateInfo.rec.lng)
  }

  // ----- Transitions -------------------------------------------------------------

  /** The first render: the stored dark-mode flag and the window width are
      read from the environment; everything else is a constant. The mount
      effect writes the flag back to storage. */
  function Init(storedDark: bool, width: nat): (s: Ui)
    ensures Consistent(s)
    ensures s.states == [] && s.selectedStateInfo == Blank
    ensures s.darkMode == storedDark && s.windowWidth == width
    ensures s.selectedState == DefaultState && s.mapCenter == DefaultCenter
    ensures s.casesType == Key(Active) && ActiveCards(s) == [Active]
  {
    Ui([], DefaultState, Blank, Key(Active), DefaultCenter, storedDark, storedDark, width)
  }

  /** The fetch callback: keep the joined records and select the first one.
      The dropdown value and the map centre are left as they were. */
  function Load(s: Ui, stats: seq<RawStat>, geo: seq<GeoEntry>): (t: Ui)
    ensures t.states == StateJoin.Join(stats, geo)
    ensures t.selectedStateInfo.Undefined? <==> forall i, j :: !StateJoin.Matches(stats, geo, i, j)
    ensures |t.states| > 0 ==> t.selectedStateInfo == Picked(t.states[0])
    ensures t.selectedState == s.selectedState && t.mapCenter == s.mapCenter
    ensures t.casesType == s.casesType && t.darkMode == s.darkMode
    ensures t.storedDark == s.storedDark && t.windowWidth == s.windowWidth
  {
    var joined := StateJoin.Join(stats, geo);
    StateJoin.JoinEmpty(stats, geo);
    s.(states := joined, selectedStateInfo := if |joined| > 0 then Picked(joined[0]) else Undefined)
  }

  /** `states[k]` is the first record with the code `code`. */
  predicate FirstWithCode(states: seq<StateRecord>, code: string, k: int) {
    && 0 <= k < |states|
    && states[k].statecode == code
    && forall k' :: 0 <= k' < k ==> states[k'].statecode != code
  }

  /** `states.filter(state => state.statecode === code)`. */
  function WithCode(states: seq<StateRecord>, code: string): (hits: seq<StateRecord>)
    ensures forall e :: e in hits ==> e in states && e.statecode == code
    ensures hits == [] <==> forall k :: 0 <= k < |states| ==> states[k].statecode != code
    ensures hits != [] ==> exists k :: FirstWithCode(states, code, k) && hits[0] == states[k]
  {
    if |states| == 0 then []
    else
      var rest := WithCode(states[1..], code);
      assert forall k :: 1 <= k < |states| ==> states[k] == states[1..][k - 1];
      if states[0].statecode == code then
        assert FirstWithCode(states, code, 0);
        [states[0]] + rest
      else
        assert rest != [] ==> exists k :: FirstWithCode(states, code, k) && rest[0] == states[k] by {
          if rest != [] {
            var k :| FirstWithCode(states[1..], code, k) && rest[0] == states[1..][k];
            assert FirstWithCode(states, code, k + 1);
          }
        }
        rest
  }

  /** The dropdown's change handler: select the code, take the first record
      with that code, and centre the map on it. With no such record the source
      reads `lat` of `undefined`, which is reported as a failure here. */
  function SelectState(s: Ui, code: string): (r: Result<Ui, Failure>)
    ensures r.Ok? <==> exists k :: 0 <= k < |s.states| && s.states[k].statecode == code
    ensures r.Err? ==> r.error == UnknownStateCode(code)
    ensures r.Ok? ==>
              exists k :: && FirstWithCode(s.states, code, k)
                          && r.value == s.(selectedState := code,
                                           selectedStateInfo := Picked(s.states[k]),
                                           mapCenter := Center(s.states[k].lat, s.states[k].lng))
  {
    var hits := WithCode(s.states, code);
    if |hits| == 0 then Err(UnknownStateCode(code))
    else
      var e := hits[0];
      Ok(s.(selectedState := code, selectedStateInfo := Picked(e), mapCenter := Center(e.lat, e.lng)))
  }

  /** A status card's click handler. */
  function SetCasesType(s: Ui, m: Metric): (t: Ui)
    ensures ActiveCards(t) == [m]
    ensures t == s.(casesType := Key(m))
  {
    s.(casesType := Key(m))
  }

  /** The dark-mode switch, followed by the effect that persists the flag. */
  function ToggleDark(s: Ui): (t: Ui)
    ensures t.darkMode != s.darkMode && Persisted(t)
    ensures t == s.(darkMode := t.darkMode, storedDark := t.storedDark)
  {
    s.(darkMode := !s.darkMode, storedDark := !s.darkMode)
  }

  /** The resize listener. A resize decides only whether the cards abbreviate
      their counts: which counts they show, and whether they can render at
      all, stay as they were. */
  function Resize(s: Ui, width: nat): (t: Ui)
    ensures t.windowWidth == width
    ensures forall m :: CardCases(t, m).Ok? <==> CardCases(s, m).Ok?
    ensures forall m :: CardCases(t, m).Ok? ==>
              && (CardCases(t, m).value.Abbreviated? <==> width < NarrowWidth)
              && CardCases(t, m).value.count == CardCases(s, m).value.count
    ensures t.states == s.states && t.selectedState == s.selectedState
    ensures t.selectedStateInfo == s.selectedStateInfo && t.mapCenter == s.mapCenter
    ensures t.casesType == s.casesType && t.darkMode == s.darkMode && t.storedDark == s.storedDark
  {
    s.(windowWidth := width)
  }

  // ----- Status cards ------------------------------------------------------------

  /** A card's `active` flag. */
  predicate CardActive(s: Ui, m: Metric) {
    s.casesType == Key(m)
  }

  /** The highlighted cards, in render order. */
  function ActiveCards(s: Ui): (hs: seq<Metric>)
    ensures forall m :: m in hs <==> CardActive(s, m)
  {
    var a := if CardActive(s, Active) then [Active] else [];
    var c := if CardActive(s, Confirmed) then [Confirmed] else [];
    var r := if CardActive(s, Recovered) then [Recovered] else [];
    var d := if CardActive(s, Deaths) then [Deaths] else [];
    var hs := a + c + r + d;
    assert forall m :: m in hs <==> CardActive(s, m) by {
      forall m ensures m in hs <==> CardActive(s, m) {
        assert m in hs <==> m in a || m in c || m in r || m in d;
        assert m == Active || m == Confirmed || m == Recovered || m == Deaths;
      }
    }
    hs
  }

  /** What a card shows: the count passed through the external formatter, or
      the raw count. The count is absent while the selection is still `{}`. */
  datatype Cases = Abbreviated(count: Option<nat>) | Plain(count: Option<nat>)

  /** The `cases` value of the card for metric `m`. */
  function CardCases(s: Ui, m: Metric): (r: Result<Cases, Failure>)
    ensures r.Err? <==> s.selectedStateInfo.Undefined?
    ensures r.Ok? ==> (r.value.Abbreviated? <==> s.windowWidth < NarrowWidth)
    ensures r.Ok? && s.selectedStateInfo.Picked? ==>
              r.value.count == Some(Count(s.selectedStateInfo.rec, m))
    ensures r.Ok? && s.selectedStateInfo.Blank? ==> r.value.count == None
  {
    match s.selectedStateInfo
    case Undefined => Err(UndefinedSelection)
    case Blank => Ok(if s.windowWidth < NarrowWidth then Abbreviated(None) else Plain(None))
    case Picked(e) =>
      var n := Count(e, m);
      Ok(if s.windowWidth < NarrowWidth then Abbreviated(Some(n)) else Plain(Some(n)))
  }

  // ----- Properties ----------------------------------------------------------------

  /** Exactly one card is highlighted precisely when `casesType` is one of the
      four metric keys. */
  lemma OneActiveCard(s: Ui)
    ensures |ActiveCards(s)| == 1 <==> KnownMetric(s)
  {
  }

  /** After loading, the selected record is the one the first matching
      (statewise, geocode) pair produces, in nested-loop order. */
  lemma LoadSelectsFirstMatch(s: Ui, stats: seq<RawStat>, geo: seq<GeoEntry>, i: int, j: int)
    requires StateJoin.Matches(stats, geo, i, j)
    requires forall i', j' :: StateJoin.Matches(stats, geo, i', j') ==> StateJoin.NoLaterThan(i, j, i', j')
    ensures Load(s, stats, geo).selectedStateInfo == Picked(Enrich(stats[i], geo[j]))
  {
    StateJoin.JoinHead(stats, geo, i, j);
  }

  /** Switching the dark mode twice restores the state, once the stored flag
      agrees with the live one. */
  lemma ToggleTwice(s: Ui)
    requires Persisted(s)
    ensures ToggleDark(ToggleDark(s)) == s
  {
  }

  /** Choosing a state puts the selection, its record and the map centre in
      agreement. */
  lemma SelectStateSyncs(s: Ui, code: string)
    requires exists k :: 0 <= k < |s.states| && s.states[k].statecode == code
    ensures SelectState(s, code).Ok? && InSync(SelectState(s, code).value)
    ensures Consistent(s) ==> Consistent(SelectState(s, code).value)
  {
  }
}

=== FILE: outcome.dfy ===
/** Small failure-carrying datatypes shared by the rest of the model. */
module Outcome {

  /** A value that may be absent, in place of JavaScript's `undefined`. */
  datatype Option<+T> = None | Some(value: T)

  /** The result of an operation that the dashboard either completes or aborts
      with a runtime error. */
  datatype Result<+T, +E> = Ok(value: T) | Err(error: E)
}

=== FILE: records.dfy ===
/** The records the dashboard handles: one feed record per state, one entry of
    the static geocode table, and the joined record the widgets are given. */
module Records {

  /** Map coordinates. The dashboard only copies them from the geocode table
      into records and into the map centre, so no arithmetic is needed. */
  type Coord = real

  /** The field names that the join writes on top of a feed record. A feed field
      of the same name is shadowed by the object spread. */
  const Shadowed: set<string> := {"lat", "lng", "name"}

  /** The field names the model gives a typed field of its own. */
  const Named: set<string> := {"statecode", "active", "confirmed", "recovered", "deaths"}

  /** The remaining fields of a feed record, by name. A JavaScript object holds
      each name once, so none of the typed fields' names appears here. */
  type OtherFields = m: map<string, string> | m.Keys !! Named witness map[]

  /** One element of the feed's `statewise` array: the state code, the four
      cumulative counts, and every other field of the feed record in `extra`. */
  datatype RawStat = RawStat(
    statecode: string,
    active: nat,
    confirmed: nat,
    recovered: nat,
    deaths: nat,
    extra: OtherFields)

  /** One entry of the bundled geocode table. Note that the table calls the
      longitude `long`, while the joined record calls it `lng`. */
  datatype GeoEntry = GeoEntry(statecode: string, name: string, lat: Coord, long: Coord)

  /** A feed record with a display name and map coordinates added. */
  datatype StateRecord = StateRecord(
    statecode: string,
    active: nat,
    confirmed: nat,
    recovered: nat,
    deaths: nat,
    extra: OtherFields,
    lat: Coord,
    lng: Coord,
    name: string)

  /** The object `{ ...r, lat: g.lat, lng: g.long, name: g.name }`. */
  function Enrich(r: RawStat, g: GeoEntry): (e: StateRecord)
    ensures Carries(r, e)
    ensures e.lat == g.lat && e.lng == g.long && e.name == g.name
    ensures Located(e, g) <==> r.statecode == g.statecode
    ensures e.extra.Keys !! Shadowed
  {
    StateRecord(r.statecode, r.active, r.confirmed, r.recovered, r.deaths,
                r.extra - Shadowed, g.lat, g.long, g.name)
  }

  /** A joined record read back as a feed record. Its `lat`, `lng` and `name`
      are left out: joining it again shadows them anyway. */
  function AsRaw(e: StateRecord): RawStat {
    RawStat(e.statecode, e.active, e.confirmed, e.recovered, e.deaths, e.extra)
  }

  /** Every field of the feed record `r` except the shadowed ones reappears
      unchanged in `e`. */
  predicate Carries(r: RawStat, e: StateRecord) {
    && e.statecode == r.statecode
    && e.active == r.active
    && e.confirmed == r.confirmed
    && e.recovered == r.recovered
    && e.deaths == r.deaths
    && e.extra == r.extra - Shadowed
  }

  /** `e` takes its name and coordinates from the geocode entry `g`, and the
      two share a state code. */
  predicate Located(e: StateRecord, g: GeoEntry) {
    && e.statecode == g.statecode
    && e.lat == g.lat
    && e.lng == g.long
    && e.name == g.name
  }
}

=== FILE: session.dfy ===
/** A session of the dashboard: the first render followed by the events the
    component handles, one at a time and each to completion. */
module Session {
  import opened Outcome
  import opened Records
  import StateJoin
  import opened Dashboard

  /** The events the component reacts to. */
  datatype Event =
    | LoadComplete(stats: seq<RawStat>, geo: seq<GeoEntry>)  // the fetch resolved
    | StateChange(code: string)                               // dropdown choice
    | MetricClick(metric: Metric)                             // a status card was clicked
    | ToggleClick                                             // the dark-mode switch
    | WindowResize(width: nat)                                // the window was resized

  /** The state after handling one event. */
  function Step(s: Ui, ev: Event): (r: Result<Ui, Failure>)
    ensures r.Err? ==>
              || (ev.StateChange? && r.error == UnknownStateCode(ev.code))
              || (&& ev.LoadComplete? && r.error == UndefinedSelection
                  && forall i, j :: !StateJoin.Matches(ev.stats, ev.geo, i, j))
    ensures r.Err? <==>
              || (ev.StateChange? && forall k :: 0 <= k < |s.states| ==> s.states[k].statecode != ev.code)
              || (ev.LoadComplete? && forall i, j :: !StateJoin.Matches(ev.stats, ev.geo, i, j))
    ensures r.Ok? ==> Consistent(s) ==> Consistent(r.value)
    ensures r.Ok? && ev.LoadComplete? ==> r.value == Load(s, ev.stats, ev.geo)
    ensures r.Ok? && ev.StateChange? ==> InSync(r.value)
  {
    match ev
    case LoadComplete(stats, geo) =>
      // An empty join selects `undefined`; the next render reads its counts
      // and throws, which ends the component.
      var t := Load(s, stats, geo);
      if t.selectedStateInfo.Undefined? then Err(UndefinedSelection) else Ok(t)
    case StateChange(code) =>
      var r := SelectState(s, code);
      if r.Ok? then
        SelectStateSyncs(s, code);
        r
      else r
    case MetricClick(m) =>
      OneActiveCard(SetCasesType(s, m));
      Ok(SetCasesType(s, m))
    case ToggleClick => Ok(ToggleDark(s))
    case WindowResize(w) => Ok(Resize(s, w))
  }

  /** The state after handling a sequence of events; a handler that fails
      ends the session with its failure. */
  function Run(s: Ui, evs: seq<Event>): Result<Ui, Failure>
    decreases |evs|
  {
    if |evs| == 0 then Ok(s)
    else
      match Step(s, evs[0])
      case Err(f) => Err(f)
      case Ok(t) => Run(t, evs[1..])
  }

  /** Every state a session reaches keeps the stored dark-mode flag equal to
      the live one, `casesType` one of the four metric keys, and a selection
      that is not `undefined`. */
  lemma {:induction false} RunConsistent(s: Ui, evs: seq<Event>)
    requires Consistent(s)
    ensures Run(s, evs).Ok? ==> Consistent(Run(s, evs).value)
    decreases |evs|
  {
    if |evs| > 0 {
      var r := Step(s, evs[0]);
      if r.Ok? {
        RunConsistent(r.value, evs[1..]);
      }
    }
  }

  /** The same for every session that starts from the first render. */
  lemma ReachableConsistent(storedDark: bool, width: nat, evs: seq<Event>)
    ensures Run(Init(storedDark, width), evs).Ok? ==>
              && Persisted(Run(Init(storedDark, width), evs).value)
              && |ActiveCards(Run(Init(storedDark, width), evs).value)| == 1
              && forall m :: CardCases(Run(Init(storedDark, width), evs).value, m).Ok?
  {
    RunConsistent(Init(storedDark, width), evs);
    if Run(Init(storedDark, width), evs).Ok? {
      OneActiveCard(Run(Init(storedDark, width), evs).value);
    }
  }

  /** Once in agreement, the selection, its record and the map centre stay in
      agreement through every event other than a (re)load. */
  lemma {:induction false} RunKeepsSync(s: Ui, evs: seq<Event>)
    requires InSync(s)
    requires forall k :: 0 <= k < |evs| ==> !evs[k].LoadComplete?
    ensures Run(s, evs).Ok? ==> InSync(Run(s, evs).value)
    decreases |evs|
  {
    if |evs| > 0 {
      var r := Step(s, evs[0]);
      if r.Ok? {
        if evs[0].StateChange? {
          SelectStateSyncs(s, evs[0].code);
        }
        assert forall k :: 0 <= k < |evs[1..]| ==> evs[1..][k] == evs[k + 1];
        RunKeepsSync(r.value, evs[1..]);
      }
    }
  }

  /** For every feed and geocode table, a successful load from the first
      render keeps the dropdown at "TT" and the map at its default centre, even
      though it selects a record. */
  lemma LoadKeepsDefaults(storedDark: bool, width: nat, stats: seq<RawStat>, geo: seq<GeoEntry>)
    ensures var t := Run(Init(storedDark, width), [LoadComplete(stats, geo)]);
            t.Ok? ==>
              && t.value.selectedState == DefaultState
              && t.value.mapCenter == DefaultCenter
              && t.value.selectedStateInfo.Picked?
  {
    assert [LoadComplete(stats, geo)][1..] == [];
  }

  /** A single Maharashtra record joined with its geocode entry: one record
      is kept and selected, but the dropdown value stays "TT" and the map
      keeps its default centre until a state is chosen. */
  lemma LoadKeepsDefaultCenter(storedDark: bool)
    ensures var mh := RawStat("MH", 40, 100, 55, 5, map[]);
            var geo := [GeoEntry("MH", "Maharashtra", 19.7, 75.7)];
            var t := Run(Init(storedDark, 1024), [LoadComplete([mh], geo)]);
            && t.Ok?
            && |t.value.states| == 1
            && t.value.states[0].name == "Maharashtra"
            && t.value.selectedStateInfo == Picked(t.value.states[0])
            && t.value.selectedState == DefaultState
            && t.value.mapCenter == DefaultCenter
            && !InSync(t.value)
            && CardCases(t.value, Active) == Ok(Plain(Some(40)))
  {
    var mh := RawStat("MH", 40, 100, 55, 5, map[]);
    var g := GeoEntry("MH", "Maharashtra", 19.7, 75.7);
    StateJoin.JoinSnoc([], mh, [g]);
    StateJoin.RowSnoc(mh, [], g);
    assert [] + [mh] == [mh] && [] + [g] == [g];
    assert StateJoin.Join([mh], [g]) == [Enrich(mh, g)];
  }
}

=== FILE: state_join.dfy ===
/** The join of the feed's `statewise` records with the geocode table, done in
    the fetch callback as two nested loops over the two arrays. */
module StateJoin {
  import opened Records

  /** Statewise record `i` and geocode entry `j` have the same state code, so
      the inner loop body pushes a record for the pair. */
  predicate Matches(stats: seq<RawStat>, geo: seq<GeoEntry>, i: int, j: int) {
    0 <= i < |stats| && 0 <= j < |geo| && stats[i].statecode == geo[j].statecode
  }

  /** Pair `(i, j)` comes no later than pair `(i', j')` in the order the nested
      loops visit them. */
  predicate NoLaterThan(i: int, j: int, i': int, j': int) {
    i < i' || (i == i' && j <= j')
  }

  /** How many geocode entries carry the code `c`. */
  function Occurrences(geo: seq<GeoEntry>, c: string): nat {
    if |geo| == 0 then 0
    else Occurrences(geo[..|geo| - 1], c) + (if geo[|geo| - 1].statecode == c then 1 else 0)
  }

  /** No state code occurs twice in the geocode table. */
  predicate UniqueCodes(geo: seq<GeoEntry>) {
    forall j, j' :: 0 <= j < j' < |geo| ==> geo[j].statecode != geo[j'].statecode
  }

  /** What one pass of the inner loop appends for the feed record `r`: one
      record per geocode entry with `r`'s code, in table order. There is no
      `break`, so a code listed twice gives two records. */
  function Row(r: RawStat, geo: seq<GeoEntry>): (out: seq<StateRecord>)
    ensures |out| == Occurrences(geo, r.statecode)
  {
    if |geo| == 0 then []
    else
      var g := geo[|geo| - 1];
      Row(r, geo[..|geo| - 1]) + (if g.statecode == r.statecode then [Enrich(r, g)] else [])
  }

  /** The number of (statewise, geocode) pairs with equal codes. */
  function MatchCount(stats: seq<RawStat>, geo: seq<GeoEntry>): nat {
    if |stats| == 0 then 0
    else MatchCount(stats[..|stats| - 1], geo) + Occurrences(geo, stats[|stats| - 1].statecode)
  }

  /** The joined array `DataofStates`: the rows of all feed records, in feed
      order. */
  function Join(stats: seq<RawStat>, geo: seq<GeoEntry>): seq<StateRecord> {
    if |stats| == 0 then [] else Join(stats[..|stats| - 1], geo) + Row(stats[|stats| - 1], geo)
  }

  /** The join has one record per (statewise, geocode) pair with equal codes. */
  lemma {:induction false} JoinCount(stats: seq<RawStat>, geo: seq<GeoEntry>)
    ensures |Join(stats, geo)| == MatchCount(stats, geo)
  {
    if |stats| > 0 {
      JoinCount(stats[..|stats| - 1], geo);
    }
  }

  /** The nested loops of the fetch callback, pushing onto an array. */
  method JoinNested(stats: seq<RawStat>, geo: seq<GeoEntry>) returns (out: seq<StateRecord>)
    ensures out == Join(stats, geo)
  {
    out := [];
    var i := 0;
    while i < |stats|
      invariant 0 <= i <= |stats|
      invariant out == Join(stats[..i], geo)
    {
      ghost var done := stats[..i + 1];
      assert done[..i] == stats[..i] && done[i] == stats[i];
      out := PushMatches(out, stats[i], geo);
      i := i + 1;
    }
    assert stats[..i] == stats;
  }

  /** The inner loop for one feed record: push one record per table entry
      with its code. */
  method PushMatches(acc: seq<StateRecord>, r: RawStat, geo: seq<GeoEntry>) returns (out: seq<StateRecord>)
    ensures out == acc + Row(r, geo)
  {
    out := acc;
    var j := 0;
    while j < |geo|
      invariant 0 <= j <= |geo|
      invariant out == acc + Row(r, geo[..j])
    {
      ghost var seen := geo[..j + 1];
      assert seen[..j] == geo[..j] && seen[j] == geo[j];
      if r.statecode == geo[j].statecode {
        out := out + [Enrich(r, geo[j])];
      }
      j := j + 1;
    }
    assert geo[..j] == geo;
  }

  // ----- Content of the join ---------------------------------------------------

  /** Every joined record comes from a matching pair: it carries the feed
      record's fields and the geocode entry's name and coordinates. */
  lemma {:induction false} JoinSound(stats: seq<RawStat>, geo: seq<GeoEntry>, k: int)
    requires 0 <= k < |Join(stats, geo)|
    ensures exists i, j :: Matches(stats, geo, i, j) && Join(stats, geo)[k] == Enrich(stats[i], geo[j])
    ensures exists i, j :: Matches(stats, geo, i, j) && Carries(stats[i], Join(stats, geo)[k])
                                                     && Located(Join(stats, geo)[k], geo[j])
  {
    var n := |stats|;
    var prefix := stats[..n - 1];
    var front := Join(prefix, geo);
    if k < |front| {
      JoinSound(prefix, geo, k);
      var i, j :| Matches(prefix, geo, i, j) && front[k] == Enrich(prefix[i], geo[j]);
      assert prefix[i] == stats[i];
      assert Matches(stats, geo, i, j);
    } else {
      var row := Row(stats[n - 1], geo);
      assert Join(stats, geo)[k] == row[k - |front|];
      RowSound(stats[n - 1], geo, k - |front|);
      var j :| 0 <= j < |geo| && geo[j].statecode == stats[n - 1].statecode
               && row[k - |front|] == Enrich(stats[n - 1], geo[j]);
      assert Matches(stats, geo, n - 1, j);
    }
  }

  /** Every record of `r`'s row comes from a table entry with `r`'s code. */
  lemma {:induction false} RowSound(r: RawStat, geo: seq<GeoEntry>, k: int)
    requires 0 <= k < |Row(r, geo)|
    ensures exists j :: 0 <= j < |geo| && geo[j].statecode == r.statecode && Row(r, geo)[k] == Enrich(r, geo[j])
  {
    var n := |geo|;
    var prefix := geo[..n - 1];
    if k < |Row(r, prefix)| {
      RowSound(r, prefix, k);
      var j :| 0 <= j < |prefix| && prefix[j].statecode == r.statecode && Row(r, prefix)[k] == Enrich(r, prefix[j]);
      assert prefix[j] == geo[j];
    } else {
      assert Row(r, geo)[k] == Enrich(r, geo[n - 1]);
    }
  }

  /** Every matching pair yields its record somewhere in the join. */
  lemma {:induction false} JoinComplete(stats: seq<RawStat>, geo: seq<GeoEntry>, i: int, j: int)
    requires Matches(stats, geo, i, j)
    ensures Enrich(stats[i], geo[j]) in Join(stats, geo)
  {
    var n := |stats|;
    var prefix := stats[..n - 1];
    var front, row := Join(prefix, geo), Row(stats[n - 1], geo);
    var e := Enrich(stats[i], geo[j]);
    assert Join(stats, geo) == front + row;
    if i < n - 1 {
      assert prefix[i] == stats[i];
      JoinComplete(prefix, geo, i, j);
      assert e in front;
    } else {
      RowComplete(stats[i], geo, j);
      assert e in row;
    }
  }

  /** Every geocode entry with `r`'s code yields its record in `r`'s row. */
  lemma {:induction false} RowComplete(r: RawStat, geo: seq<GeoEntry>, j: int)
    requires 0 <= j < |geo| && geo[j].statecode == r.statecode
    ensures Enrich(r, geo[j]) in Row(r, geo)
  {
    var n := |geo|;
    if j < n - 1 {
      RowComplete(r, geo[..n - 1], j);
    }
  }

  /** A record is in the join exactly when some matching pair produces it. */
  lemma JoinMembership(stats: seq<RawStat>, geo: seq<GeoEntry>, e: StateRecord)
    ensures e in Join(stats, geo) <==>
              exists i, j :: Matches(stats, geo, i, j) && e == Enrich(stats[i], geo[j])
  {
    if e in Join(stats, geo) {
      var k :| 0 <= k < |Join(stats, geo)| && Join(stats, geo)[k] == e;
      JoinSound(stats, geo, k);
    }
    if exists i, j :: Matches(stats, geo, i, j) && e == Enrich(stats[i], geo[j]) {
      var i, j :| Matches(stats, geo, i, j) && e == Enrich(stats[i], geo[j]);
      JoinComplete(stats, geo, i, j);
    }
  }

  /** The join is empty exactly when no pair matches; in particular a feed
      record whose code is not in the table contributes nothing. */
  lemma JoinEmpty(stats: seq<RawStat>, geo: seq<GeoEntry>)
    ensures Join(stats, geo) == [] <==> forall i, j :: !Matches(stats, geo, i, j)
  {
    if Join(stats, geo) != [] {
      JoinSound(stats, geo, 0);
    }
    if exists i, j :: Matches(stats, geo, i, j) {
      var i, j :| Matches(stats, geo, i, j);
      JoinComplete(stats, geo, i, j);
    }
  }

  /** A feed record's row is empty exactly when the table lacks its code. */
  lemma RowEmpty(r: RawStat, geo: seq<GeoEntry>)
    ensures Row(r, geo) == [] <==> forall j :: 0 <= j < |geo| ==> geo[j].statecode != r.statecode
  {
    if exists j :: 0 <= j < |geo| && geo[j].statecode == r.statecode {
      var j :| 0 <= j < |geo| && geo[j].statecode == r.statecode;
      RowComplete(r, geo, j);
    }
  }

  // ----- Order of the join -----------------------------------------------------

  /** The rows of a split table are the rows of its parts, in order: records
      follow the inner (table) index. */
  lemma {:induction false} RowAppend(r: RawStat, g1: seq<GeoEntry>, g2: seq<GeoEntry>)
    ensures Row(r, g1 + g2) == Row(r, g1) + Row(r, g2)
  {
    if |g2| == 0 {
      assert g1 + g2 == g1;
    } else {
      var front, g := g2[..|g2| - 1], g2[|g2| - 1];
      var piece := if g.statecode == r.statecode then [Enrich(r, g)] else [];
      calc {
        Row(r, g1 + g2);
        == { assert g1 + g2 == (g1 + front) + [g]; }
        Row(r, (g1 + front) + [g]);
        == { RowSnoc(r, g1 + front, g); }
        Row(r, g1 + front) + piece;
        == { RowAppend(r, g1, front); }
        (Row(r, g1) + Row(r, front)) + piece;
        ==
        Row(r, g1) + (Row(r, front) + piece);
        == { RowSnoc(r, front, g); assert front + [g] == g2; }
        Row(r, g1) + Row(r, g2);
      }
    }
  }

  /** Appending one table entry appends at most its record to a row. */
  lemma RowSnoc(r: RawStat, geo: seq<GeoEntry>, g: GeoEntry)
    ensures Row(r, geo + [g]) == Row(r, geo) + (if g.statecode == r.statecode then [Enrich(r, g)] else [])
  {
    assert (geo + [g])[..|geo|] == geo;
  }

  /** Appending one feed record appends its row to the join. */
  lemma JoinSnoc(stats: seq<RawStat>, r: RawStat, geo: seq<GeoEntry>)
    ensures Join(stats + [r], geo) == Join(stats, geo) + Row(r, geo)
  {
    assert (stats + [r])[..|stats|] == stats;
  }

  /** The join of a split feed is the join of its parts, in order: records
      follow the outer (feed) index. */
  lemma {:induction false} JoinAppend(s1: seq<RawStat>, s2: seq<RawStat>, geo: seq<GeoEntry>)
    ensures Join(s1 + s2, geo) == Join(s1, geo) + Join(s2, geo)
  {
    if |s2| == 0 {
      assert s1 + s2 == s1;
    } else {
      var front, r := s2[..|s2| - 1], s2[|s2| - 1];
      calc {
        Join(s1 + s2, geo);
        == { assert s1 + s2 == (s1 + front) + [r]; }
        Join((s1 + front) + [r], geo);
        == { JoinSnoc(s1 + front, r, geo); }
        Join(s1 + front, geo) + Row(r, geo);
        == { JoinAppend(s1, front, geo); }
        (Join(s1, geo) + Join(front, geo)) + Row(r, geo);
        ==
        Join(s1, geo) + (Join(front, geo) + Row(r, geo));
        == { JoinSnoc(front, r, geo); assert front + [r] == s2; }
        Join(s1, geo) + Join(s2, geo);
      }
    }
  }

  /** The records of feed record `i` form one block, after the records of
      all earlier feed records and before those of all later ones. */
  lemma JoinBlock(stats: seq<RawStat>, geo: seq<GeoEntry>, i: int)
    requires 0 <= i < |stats|
    ensures Join(stats, geo) == Join(stats[..i], geo) + Row(stats[i], geo) + Join(stats[i + 1..], geo)
  {
    assert stats == stats[..i] + [stats[i]] + stats[i + 1..];
    JoinAppend(stats[..i] + [stats[i]], stats[i + 1..], geo);
    JoinAppend(stats[..i], [stats[i]], geo);
    assert [stats[i]][..0] == [];
  }

  /** Within a row, the record of table entry `j` comes after those of all
      earlier entries and before those of all later ones. */
  lemma RowBlock(r: RawStat, geo: seq<GeoEntry>, j: int)
    requires 0 <= j < |geo|
    ensures Row(r, geo) == Row(r, geo[..j])
                           + (if geo[j].statecode == r.statecode then [Enrich(r, geo[j])] else [])
                           + Row(r, geo[j + 1..])
  {
    assert geo == geo[..j] + [geo[j]] + geo[j + 1..];
    RowAppend(r, geo[..j] + [geo[j]], geo[j + 1..]);
    RowAppend(r, geo[..j], [geo[j]]);
    assert [geo[j]][..0] == [];
  }

  /** The first joined record is produced by the first matching pair in the
      order the nested loops visit pairs. */
  lemma JoinHead(stats: seq<RawStat>, geo: seq<GeoEntry>, i: int, j: int)
    requires Matches(stats, geo, i, j)
    requires forall i', j' :: Matches(stats, geo, i', j') ==> NoLaterThan(i, j, i', j')
    ensures |Join(stats, geo)| > 0 && Join(stats, geo)[0] == Enrich(stats[i], geo[j])
  {
    JoinBlock(stats, geo, i);
    forall i', j' ensures !Matches(stats[..i], geo, i', j') {
      assert Matches(stats[..i], geo, i', j') ==> Matches(stats, geo, i', j');
      assert Matches(stats, geo, i', j') ==> NoLaterThan(i, j, i', j');
    }
    JoinEmpty(stats[..i], geo);
    RowBlock(stats[i], geo, j);
    forall j' | 0 <= j' < |geo[..j]| ensures geo[..j][j'].statecode != stats[i].statecode {
      assert geo[..j][j'] == geo[j'];
      assert Matches(stats, geo, i, j') ==> NoLaterThan(i, j, i, j');
    }
    RowEmpty(stats[i], geo[..j]);
  }

  // ----- Keyed lookup ----------------------------------------------------------

  /** The geocode table as a map from state code to entry; a later entry
      replaces an earlier one with the same code. */
  function Index(geo: seq<GeoEntry>): (idx: map<string, GeoEntry>)
    ensures forall c :: c in idx ==> idx[c].statecode == c
  {
    if |geo| == 0 then map[]
    else Index(geo[..|geo| - 1])[geo[|geo| - 1].statecode := geo[|geo| - 1]]
  }

  /** The keyed table holds exactly the codes the geocode table lists. */
  lemma {:induction false} IndexKeys(geo: seq<GeoEntry>, c: string)
    ensures c in Index(geo) <==> exists j :: 0 <= j < |geo| && geo[j].statecode == c
  {
    if |geo| > 0 {
      var n := |geo|;
      var prefix := geo[..n - 1];
      IndexKeys(prefix, c);
      assert Index(geo).Keys == Index(prefix).Keys + {geo[n - 1].statecode};
      if exists j :: 0 <= j < n && geo[j].statecode == c {
        var j :| 0 <= j < n && geo[j].statecode == c;
        if j < n - 1 {
          assert prefix[j] == geo[j];
        }
      }
      if exists j :: 0 <= j < n - 1 && prefix[j].statecode == c {
        var j :| 0 <= j < n - 1 && prefix[j].statecode == c;
        assert geo[j] == prefix[j];
      }
    }
  }

  /** A join that looks each feed record's code up in a keyed table: at most
      one record per feed record, in feed order. */
  function LookupJoin(stats: seq<RawStat>, idx: map<string, GeoEntry>): (out: seq<StateRecord>)
    ensures |out| <= |stats|
  {
    if |stats| == 0 then []
    else
      var r := stats[|stats| - 1];
      LookupJoin(stats[..|stats| - 1], idx)
        + (if r.statecode in idx then [Enrich(r, idx[r.statecode])] else [])
  }

  /** With unique codes a feed record's row is the keyed lookup of its code. */
  lemma {:induction false} RowByIndex(r: RawStat, geo: seq<GeoEntry>)
    requires UniqueCodes(geo)
    ensures Row(r, geo) == if r.statecode in Index(geo) then [Enrich(r, Index(geo)[r.statecode])] else []
  {
    if |geo| > 0 {
      var n := |geo|;
      var prefix := geo[..n - 1];
      assert UniqueCodes(prefix) by {
        forall j, j' | 0 <= j < j' < |prefix| ensures prefix[j].statecode != prefix[j'].statecode {
          assert prefix[j] == geo[j] && prefix[j'] == geo[j'];
        }
      }
      var g, before := geo[n - 1], Index(prefix);
      RowByIndex(r, prefix);
      assert Row(r, geo) == Row(r, prefix) + (if g.statecode == r.statecode then [Enrich(r, g)] else []);
      assert Index(geo) == before[g.statecode := g];
      if r.statecode == g.statecode {
        forall j | 0 <= j < |prefix| ensures prefix[j].statecode != g.statecode {
          assert prefix[j] == geo[j];
        }
        IndexKeys(prefix, r.statecode);
        assert r.statecode !in before;
      }
    }
  }

  /** With unique codes the nested-loop join equals the keyed lookup join, so
      the join keeps at most one record per feed record, in feed order. */
  lemma {:induction false} JoinByIndex(stats: seq<RawStat>, geo: seq<GeoEntry>)
    requires UniqueCodes(geo)
    ensures Join(stats, geo) == LookupJoin(stats, Index(geo))
    ensures |Join(stats, geo)| <= |stats|
  {
    if |stats| > 0 {
      JoinByIndex(stats[..|stats| - 1], geo);
      RowByIndex(stats[|stats| - 1], geo);
    }
  }

  // ----- Joining twice ----------------------------------------------------------

  /** Joined records read back as feed records. */
  function AsRaws(es: seq<StateRecord>): (rs: seq<RawStat>)
    ensures |rs| == |es|
  {
    seq(|es|, k requires 0 <= k < |es| => AsRaw(es[k]))
  }

  lemma {:induction false} LookupJoinAppend(s1: seq<RawStat>, s2: seq<RawStat>, idx: map<string, GeoEntry>)
    ensures LookupJoin(s1 + s2, idx) == LookupJoin(s1, idx) + LookupJoin(s2, idx)
  {
    if |s2| == 0 {
      assert s1 + s2 == s1;
    } else {
      var front, r := s2[..|s2| - 1], s2[|s2| - 1];
      var one := LookupJoin([r], idx);
      calc {
        LookupJoin(s1 + s2, idx);
        == { assert s1 + s2 == (s1 + front) + [r]; }
        LookupJoin((s1 + front) + [r], idx);
        == { LookupSnoc(s1 + front, r, idx); }
        LookupJoin(s1 + front, idx) + one;
        == { LookupJoinAppend(s1, front, idx); }
        (LookupJoin(s1, idx) + LookupJoin(front, idx)) + one;
        ==
        LookupJoin(s1, idx) + (LookupJoin(front, idx) + one);
        == { LookupSnoc(front, r, idx); assert front + [r] == s2; }
        LookupJoin(s1, idx) + LookupJoin(s2, idx);
      }
    }
  }

  lemma LookupSnoc(stats: seq<RawStat>, r: RawStat, idx: map<string, GeoEntry>)
    ensures LookupJoin(stats + [r], idx) == LookupJoin(stats, idx) + LookupJoin([r], idx)
  {
    assert (stats + [r])[..|stats|] == stats;
    assert [r][..0] == [];
  }

  /** The keyed join of one feed record, joined again, is unchanged. */
  lemma LookupOneTwice(r: RawStat, idx: map<string, GeoEntry>)
    requires forall c :: c in idx ==> idx[c].statecode == c
    ensures var once := LookupJoin([r], idx); LookupJoin(AsRaws(once), idx) == once
  {
    assert [r][..0] == [];
    if r.statecode in idx {
      var e := Enrich(r, idx[r.statecode]);
      assert LookupJoin([r], idx) == [e];
      var again := AsRaws([e]);
      assert again == [AsRaw(e)] && again[..0] == [];
      assert (r.extra - Shadowed) - Shadowed == r.extra - Shadowed;
      assert Enrich(AsRaw(e), idx[r.statecode]) == e;
    } else {
      assert LookupJoin([r], idx) == [];
    }
  }

  /** Looking records up again in a table whose keys are their entries' codes
      reproduces them. */
  lemma {:induction false} LookupJoinTwice(stats: seq<RawStat>, idx: map<string, GeoEntry>)
    requires forall c :: c in idx ==> idx[c].statecode == c
    ensures LookupJoin(AsRaws(LookupJoin(stats, idx)), idx) == LookupJoin(stats, idx)
  {
    if |stats| > 0 {
      var n := |stats|;
      var r := stats[n - 1];
      var front := LookupJoin(stats[..n - 1], idx);
      var tail := if r.statecode in idx then [Enrich(r, idx[r.statecode])] else [];
      var again, againTail := AsRaws(front), AsRaws(tail);
      assert LookupJoin(stats, idx) == front + tail;
      assert AsRaws(front + tail) == again + againTail;
      LookupJoinAppend(again, againTail, idx);
      LookupJoinTwice(stats[..n - 1], idx);
      LookupOneTwice(r, idx);
    }
  }

  /** With unique codes, joining the joined records again against the same
      table gives the same records: no record is added or duplicated. */
  lemma JoinIdempotent(stats: seq<RawStat>, geo: seq<GeoEntry>)
    requires UniqueCodes(geo)
    ensures Join(AsRaws(Join(stats, geo)), geo) == Join(stats, geo)
  {
    JoinByIndex(stats, geo);
    JoinByIndex(AsRaws(Join(stats, geo)), geo);
    LookupJoinTwice(stats, Index(geo));
  }
}
